=== FILE: README.md ===
# Knowledge vault: verified model of the data layer

This project is a Dafny model of the data-management layer of a small note-taking app (a "knowledge farm" shown as a mini-program). Users capture **materials**: short notes with a title, content, a category ("type") and a domain ("field"). They can mark a material as a **key point**, search and filter the newest-first list, and browse an **outline** grouped by category or domain. They also manage the two **taxonomy** lists and pick a visual **theme**. The theme's seasonal preset ("stardew") changes colour with a four-step **season** cycle. An external classifier may suggest a category and domain for a draft.

All of this lives in `App.tsx`, with the record shapes in `types.ts`. The model keeps the pure list and record transformations and proves what they promise.

| file | module | what it holds |
|---|---|---|
| `wrappers.dfy` | `Wrappers` | `Option`, standing for `null` / `undefined` |
| `seqs.dfy` | `Seqs` | `Filter` (the model of `Array.prototype.filter`), subsequence order, duplicate-freedom |
| `text.dfy` | `Text` | ASCII lower-casing and `includes` (substring search) |
| `materials.dfy` | `Materials` | the `Material` record, save / delete / toggle key point, the search filter |
| `taxonomy.dfy` | `Taxonomy` | add / remove on the category and domain lists, edit sessions, starter lists |
| `outline.dfy` | `Outline` | grouping materials by category or domain |
| `theme.dfy` | `Theme` | presets, the seasonal overlay, the season cycle |
| `editor.dfy` | `Editor` | the draft, its initial selection, the AI-suggestion guard, publishing |
| `app.dfy` | `App` | the whole state, user actions, the invariant they keep, walk-through scenarios |

Design choices:
- Every operation is a pure function from the old value to the new one. React's `setState` calls become returned values.
- `isKeyPoint` is optional in the stored record, so it may be absent. An absent flag reads as `false` everywhere, and `!undefined` is `true`. A plain `bool` with "absent = false" therefore behaves the same.
- The material id and `createdAt` are parameters. In the app they come from `Math.random` and the clock. Id uniqueness is **not** assumed. `Delete` and `ToggleKeyPoint` act on *every* material carrying the id, just as the `filter` and `map` calls do.
- The classifier's answer is an `Option<Suggestion>`. `None` means a failed parse (the `null` result). A missing field is a `None` field.

Behaviours that are easy to misread:
- Removing a taxonomy entry drops *every* exact match (a `filter`), not only the first one. On a duplicate-free list the two readings agree, and `Taxonomy.ApplyEditsKeepsWellFormed` proves the lists stay duplicate-free.
- A material's category need not be a listed category. The editor opens on `categories[0] || '其他'`. With an empty list (or a first entry that is empty), the draft holds `'其他'`, which need not be listed, and it can be published that way (`Editor.EmptyListPublishesUnlistedCategory`). `Editor.Selectable` states the invariant the editor actually keeps: "listed or the fallback".
- The stored values are read with an unguarded `JSON.parse`. There is no "malformed → default" fallback, so none is modelled.

The search test runs over `title + content` joined together, so a query can match across the point where the title ends and the content begins (`Materials.SearchSpansTitleAndContent`). The classifier is told to choose among categories and domains (`geminiService.ts:19`, `geminiService.ts:23`) that differ from the starter lists. On those lists, the unlisted answers "政策", "文化" and "社会" are always ignored (`App.StarterListsIgnoreUnlistedSuggestion`).

## Model

| member | source | states |
|---|---|---|
| `Seqs.Filter` | App.tsx:145-150 | the result holds exactly the elements satisfying the test and keeps their order (it is a subsequence); a test every element passes returns the list unchanged |
| `Seqs.FilterMultiplicity` | App.tsx:145-150 | a kept value keeps all its occurrences; a dropped value keeps none |
| `Seqs.FilterUnique` | App.tsx:145-150 | the filter result is the only longest subsequence whose elements all pass the test |
| `Seqs.FilterNoDup` | App.tsx:503 | filtering a duplicate-free list gives a duplicate-free list |
| `Seqs.FilterCongruent` | App.tsx:145-150 | two tests that give the same answer on every element of the list produce the same filtered list |
| `Text.LowerChar` | App.tsx:146 | an ASCII capital becomes the matching small letter, every other character is unchanged, and no capital is left |
| `Text.Lower` | App.tsx:146 | lower-casing keeps the length, turns each ASCII capital into its own small letter (code point + 32) and keeps every other character |
| `Text.Includes` | App.tsx:146 | `includes` holds exactly when the pattern occurs at some position of the text; the empty pattern is always found |
| `Text.LowerAppend` | App.tsx:146 | lower-casing the joined title and content is joining their lower-cased forms |
| `Text.LowerIdempotent` | App.tsx:146 | lower-casing twice is lower-casing once |
| `Text.FirstCharAbsent` | App.tsx:146 | a query whose first character is not in the text is not found |
| `Text.IncludesAppend` | App.tsx:146 | a match inside the title or inside the content is also a match in the joined text |
| `Materials.NewMaterial` | App.tsx:550-557 | a published material carries the draft's text and selections and the given id and timestamp, and starts with no tags, no annotations and the key-point flag off |
| `Materials.Save` | App.tsx:324 | saving grows the list by one, puts the new material first and keeps the old list behind it |
| `Materials.Delete` | App.tsx:334 | exactly the materials with another id remain, in their old order; an absent id changes nothing |
| `Materials.ToggleKeyPoint` | App.tsx:335 | the length is kept; the flag flips exactly on the materials with the id; every other field and every other material is unchanged |
| `Materials.Matches` | App.tsx:146-149 | a material passes exactly when its lower-cased title+content contains the lower-cased query at some position, its category equals the chip (or the chip is "all"), and it is a key point if the key-point chip is on; the neutral settings pass every material |
| `Materials.Search` | App.tsx:144-151 | the shown list is an order-preserving selection whose members are exactly those whose lower-cased title+content contains the lower-cased query, whose category matches (or the chip is "all"), and which are key points when the key-point chip is on; empty query, "all" and chip off show the whole list |
| `Materials.SearchIsLongestMatching` | App.tsx:144-151 | no other order-preserving selection of passing materials is as long as the shown list |
| `Materials.SearchCaseInsensitive` | App.tsx:146 | queries with the same lower-case form show the same list |
| `Materials.SearchIdempotent` | App.tsx:144-151 | filtering the shown list again with the same settings changes nothing |
| `Materials.SearchSingleton` | App.tsx:145-150 | a one-material list is shown exactly when that material passes all three tests |
| `Materials.SearchSpansTitleAndContent` | App.tsx:146 | a query may straddle title and content: title "ab" with content "cd" is found by "bc" |
| `Materials.DeleteUndoesSave` | App.tsx:334 | deleting the id of a just-saved material with a fresh id restores the previous list |
| `Materials.ToggleKeyPointInvolution` | App.tsx:335 | toggling the same id twice restores every flag |
| `Materials.ToggleKeyPointCommutes` | App.tsx:335 | toggles of two ids can be applied in either order |
| `Taxonomy.Add` | App.tsx:482-483 | an empty or already listed name (exact, case-sensitive) is rejected and changes nothing; otherwise it is appended at the end; earlier entries and their order are kept; a well-formed list stays well formed |
| `Taxonomy.Remove` | App.tsx:503 | the name is gone, every other entry stays in its relative order, an absent name changes nothing, and a well-formed list stays well formed |
| `Taxonomy.AddIdempotent` | App.tsx:482 | adding the same name twice is adding it once |
| `Taxonomy.RemoveUndoesAdd` | App.tsx:503 | removing a name that was just added (and was not listed before) restores the list |
| `Taxonomy.ApplyEditKeepsWellFormed` | App.tsx:482-519 | one add or remove keeps the list duplicate-free and free of empty names, and introduces no name other than its own argument |
| `Taxonomy.ApplyEditsKeepsWellFormed` | App.tsx:482-519 | after any session of adds and removes the list is duplicate-free with no empty name, and each entry was there at the start or was added in the session |
| `Taxonomy.DefaultsWellFormed` | App.tsx:91-92 | the starter category and domain lists are duplicate-free and have no empty name |
| `Outline.ItemsUnder` | App.tsx:379 | a section holds exactly the materials filed under its name, in list order |
| `Outline.GroupBy` | App.tsx:378-380 | every section is non-empty, is named by a taxonomy entry, and holds that entry's materials; section names follow taxonomy order |
| `Outline.OutlineOf` | App.tsx:360-380 | the by-type tab shows non-empty sections named by categories and holding exactly the materials of that category in collection order (the `ItemsUnder` filter), the by-field tab likewise with domains; section names follow list order, and a listed name gets a section exactly when some material is filed under it |
| `Outline.GroupByCovers` | App.tsx:360-380 | a material is listed in some section exactly when its category (or domain) is a listed entry, so orphaned materials are not shown |
| `Outline.GroupByShowsEveryUsedName` | App.tsx:378-380 | an entry gets a section exactly when some material is filed under it |
| `Outline.GroupByNamesNoDup` | App.tsx:378-380 | over a duplicate-free list each section appears once |
| `Theme.Preset` | App.tsx:30-79 | a chosen preset carries its own mode |
| `Theme.Resolve` | App.tsx:113-116 | in the seasonal mode the background, panel, accent and border colours come from the season's row and every other token from the stored theme; any other mode is used unchanged |
| `Theme.SeasonalOverlay` | App.tsx:81-86 | the Spring row repeats the seasonal preset's four colours, and every other season has an accent different from the preset's |
| `Theme.IndexOf` | App.tsx:126-127 | each season has a position in the cycle order |
| `Theme.NextSeason` | App.tsx:125-128 | the next season is the one after the current in the order Spring, Summer, Autumn, Winter, and Winter is followed by Spring; it never equals the current one |
| `Theme.NextSeasonCycle` | App.tsx:125-128 | four steps return to the start after passing four different seasons |
| `Theme.ResolveIdempotent` | App.tsx:113-116 | resolving a resolved theme again changes nothing |
| `Theme.SpringIsStardewPreset` | App.tsx:55-86 | the Spring row equals the seasonal preset's colours, so spring resolution returns the preset itself |
| `Theme.SummerAccentOverridesPreset` | App.tsx:81-86 | in Summer the seasonal preset's accent is the Summer accent, which differs from the stored one |
| `Editor.InitialChoice` | App.tsx:535-536 | the opening selection is the first listed name when the list is non-empty and that name is non-empty, and the fallback "其他" in every other case (empty list or empty first entry); it is never empty |
| `Editor.Open` | App.tsx:533-536 | the form opens with empty text, with category and domain set to the first entry of their list (or the fallback "其他"), so the selection is listed or the fallback |
| `Editor.Accept` | App.tsx:544-545 | the selection changes only to a suggested, non-empty, already listed name, and always does when one is suggested |
| `Editor.SmartTag` | App.tsx:539-548 | empty content or a failed call leaves the draft alone; otherwise a suggested category (domain) that is non-empty and listed replaces the current one, a field changes only to its suggested value and never to an empty name, title and content never change, and a listed-or-fallback selection stays so |
| `Editor.ChooseCategory` | App.tsx:591-592 | picking a category from the drop-down sets the category to exactly that listed name and changes nothing else |
| `Editor.ChooseDomain` | App.tsx:597-598 | picking a domain from the drop-down sets the domain to exactly that listed name and changes nothing else |
| `Editor.Publish` | App.tsx:550-565 | publishing succeeds exactly when title and content are both non-empty, and yields a material with the draft's fields, empty tags and annotations, and the flag off |
| `Editor.UnknownSuggestionIgnored` | App.tsx:544-545 | suggested names that are not listed never change the draft |
| `Editor.SelectionStaysSelectable` | App.tsx:535-545 | a freshly opened draft keeps a listed-or-fallback selection through any suggestion |
| `Editor.EmptyListPublishesUnlistedCategory` | App.tsx:535 | with an empty category list a material is published under the unlisted fallback "其他" |
| `App.Step` | App.tsx:320-336 | each action changes only its own state value (materials, categories, domains, theme or season) and applies its operation to it (publish saves the published material or changes nothing, delete, toggle, add and remove on the right list, the chosen preset, the next season); every action keeps both taxonomy lists well formed; taxonomy edits leave materials untouched; material actions leave the lists untouched; only preset choice changes the theme and only the season action changes the season |
| `App.RunKeepsValid` | App.tsx:482-519 | any sequence of actions from a well-formed state ends in a well-formed state |
| `App.InitialValid` | App.tsx:91-98 | the first-launch state is well formed |
| `App.PublishedHeadsFullList` | App.tsx:324 | right after publishing, the unfiltered list is one longer and starts with the new material |
| `App.StarterListsIgnoreUnlistedSuggestion` | geminiService.ts:18-24 | on the starter lists, the classifier's answers "政策", "文化" and "社会" leave the draft unchanged |
| `App.ScenarioSearchFinds` | App.tsx:144-151 | after publishing "T1" with content "hello world", the query "hello" shows exactly [T1] |
| `App.ScenarioSearchMisses` | App.tsx:144-151 | the query "xyz" shows nothing |
| `App.ScenarioOtherCategoryHides` | App.tsx:147 | the chip for category "人物" hides T1, a "案例" material |
| `App.ScenarioOrphanedCategory` | App.tsx:503 | removing "案例" keeps T1 and its category name, drops "案例" from the list, and takes T1 out of the by-type outline |
| `App.ScenarioSummerAccent` | App.tsx:113-128 | after one season step from launch the accent is the Summer accent, not the preset's |

## Left out

- Rendering, modals, tab navigation, icons and styling strings (the whole JSX tree): presentation only.
- Loading and saving the four values through `localStorage` and `JSON.parse` / `JSON.stringify` (App.tsx:95-98, App.tsx:118-123): browser I/O and library serialisation. The starter lists and the default theme are modelled as the first-launch state `App.Initial`.
- The classifier call itself (geminiService.ts:7-43): an external network service. Only its outcome is modelled, as the `Option<Suggestion>` input of `Editor.SmartTag`. A thrown network error is not modelled: it leaves the editor stuck in its "analysing" state, which is presentation state.
- The single-tap / double-tap timer on the plus button (App.tsx:130-142): `setTimeout` timing. Its two outcomes are modelled as "open the editor" and the `CycleSeason` action.
- Id and timestamp generation (App.tsx:552, App.tsx:555): random and clock values, passed in as parameters.
- Annotation contents: the record is declared but carried through unchanged.
- Text.Lower: only ASCII `A`–`Z` are lower-cased, whereas `toLowerCase` also folds non-ASCII capitals (É, Σ, Ä, …). A query or a material containing such capitals can therefore match differently from the app. CJK characters have no case and are unaffected.
- The search box, chip and outline-tab selections are arguments of `Materials.Search` and `Outline.OutlineOf`, not stored state: they are React view state that is not persisted.
- Editor.SmartTag: the click and the completion of the classifier call are one atomic step. In the app, the content is checked when the button is pressed (App.tsx:540), and the suggestion is applied after the `await` (App.tsx:542-545), on top of whatever the user picked or typed in the meantime. The model takes one draft for both moments: the suggestion is applied to the draft as it stands when the answer arrives, and that same draft's content is tested. The two differ only if the user empties the content while the call is pending: the app still applies the answer, and the model does not. This is acceptable because the guard on each field reads only the suggestion and the lists, never the text, so every other interleaving gives the same selection.
- The delete confirmation dialog (App.tsx:615): `DeleteMaterial` stands for a confirmed deletion; a cancelled one changes nothing and is not an action.
- The `PickPreset` action of `App.Event` admits all four modes, including `Custom`, although the theme screen offers only minimal, pixel and stardew (App.tsx:426). Choosing `Custom` is a state the app cannot reach this way; every property proved holds for it as well.

=== FILE: app.dfy ===
/**
 The application state as a whole: the four persisted values plus the current
 season, the user actions that change them, and what those actions keep.
 */
module App {
  import opened Wrappers
  import opened Text
  import opened Materials
  import opened Taxonomy
  import opened Outline
  import opened Theme
  import opened Editor

  datatype State = State(
    materials: seq<Material>,
    categories: seq<string>,
    domains: seq<string>,
    theme: ThemeConfig,
    season: Season)

  /** The state on a first launch, when no value is stored yet. */
  const Initial: State := State([], DefaultCategories, DefaultDomains, DefaultTheme, Spring)

  /** One user action that changes persisted or seasonal state. */
  datatype Event =
    | PublishDraft(draft: Draft, id: string, createdAt: string)
    | DeleteMaterial(id: string)
    | ToggleKey(id: string)
    | AddCategory(name: string)
    | RemoveCategory(name: string)
    | AddDomain(name: string)
    | RemoveDomain(name: string)
    | PickPreset(mode: Mode)
    | CycleSeason

  /** Both taxonomy lists are duplicate-free and have no empty name. */
  predicate Valid(s: State) {
    WellFormed(s.categories) && WellFormed(s.domains)
  }

  /** Applies one action. Taxonomy edits never touch materials, and material edits never touch the lists. */
  function Step(s: State, e: Event): (r: State)
    ensures Valid(s) ==> Valid(r)
    ensures e.AddCategory? || e.RemoveCategory? || e.AddDomain? || e.RemoveDomain? ==> r.materials == s.materials
    ensures e.PublishDraft? || e.DeleteMaterial? || e.ToggleKey? ==>
              r.categories == s.categories && r.domains == s.domains
    ensures r.materials == s.materials || e.PublishDraft? || e.DeleteMaterial? || e.ToggleKey?
    ensures r.categories == s.categories || e.AddCategory? || e.RemoveCategory?
    ensures r.domains == s.domains || e.AddDomain? || e.RemoveDomain?
    ensures r.theme == s.theme || e.PickPreset?
    ensures r.season == s.season || e.CycleSeason?
    ensures e.PublishDraft? ==>
              r.materials == (match Publish(e.draft, e.id, e.createdAt)
                              case Some(m) => Save(s.materials, m)
                              case None => s.materials)
    ensures e.DeleteMaterial? ==> r.materials == Delete(s.materials, e.id)
    ensures e.ToggleKey? ==> r.materials == ToggleKeyPoint(s.materials, e.id)
    ensures e.AddCategory? ==> r.categories == Add(s.categories, e.name)
    ensures e.RemoveCategory? ==> r.categories == Remove(s.categories, e.name)
    ensures e.AddDomain? ==> r.domains == Add(s.domains, e.name)
    ensures e.RemoveDomain? ==> r.domains == Remove(s.domains, e.name)
    ensures e.PickPreset? ==> r.theme == Preset(e.mode)
    ensures e.CycleSeason? ==> r.season == NextSeason(s.season)
  {
    match e
    case PublishDraft(d, id, at) =>
      (match Publish(d, id, at)
       case Some(m) => s.(materials := Save(s.materials, m))
       case None => s)
    case DeleteMaterial(id) => s.(materials := Delete(s.materials, id))
    case ToggleKey(id) => s.(materials := ToggleKeyPoint(s.materials, id))
    case AddCategory(n) => s.(categories := Add(s.categories, n))
    case RemoveCategory(n) => s.(categories := Remove(s.categories, n))
    case AddDomain(n) => s.(domains := Add(s.domains, n))
    case RemoveDomain(n) => s.(domains := Remove(s.domains, n))
    case PickPreset(mode) => s.(theme := Preset(mode))
    case CycleSeason => s.(season := NextSeason(s.season))
  }

  /** The state after a sequence of actions, first to last. */
  function Run(s: State, events: seq<Event>): State
    decreases |events|
  {
    if events == [] then s else Run(Step(s, events[0]), events[1..])
  }

  /** The theme the screens are drawn with. */
  function CurrentTheme(s: State): ThemeConfig {
    Resolve(s.theme, s.season)
  }

  /** The list shown on the vault tab. */
  function VaultList(s: State, query: string, filterCat: string, keyOnly: bool): seq<Material> {
    Search(s.materials, query, filterCat, keyOnly)
  }

  /** Every sequence of actions from a valid state leaves a valid state. */
  lemma {:induction false} RunKeepsValid(s: State, events: seq<Event>)
    requires Valid(s)
    ensures Valid(Run(s, events))
    decreases |events|
  {
    if events != [] {
      RunKeepsValid(Step(s, events[0]), events[1..]);
    }
  }

  lemma InitialValid()
    ensures Valid(Initial)
  {
    DefaultsWellFormed();
  }

  /** A just-published material heads the unfiltered list. */
  lemma PublishedHeadsFullList(s: State, d: Draft, id: string, createdAt: string)
    requires d.title != "" && d.content != ""
    ensures var r := Step(s, PublishDraft(d, id, createdAt));
            var shown := VaultList(r, "", AllCategories, false);
            |shown| == |s.materials| + 1 && shown[0] == Publish(d, id, createdAt).value
  {
  }

  /** The material the walk-through publishes, and the state right after. */
  function T1(): Material {
    NewMaterial("t1", "2024-01-01", "T1", "hello world", "案例", "生态")
  }

  function AfterT1(): State {
    Step(Initial, PublishDraft(Draft("T1", "hello world", "案例", "生态"), "t1", "2024-01-01"))
  }

  lemma AfterT1Materials()
    ensures AfterT1().materials == [T1()]
  {
  }

  lemma T1SearchText()
    ensures SearchText(T1()) == "t1hello world"
  {
  }

  /** Walk-through, part 1: publish "T1" as a case study; a matching query finds it. */
  lemma ScenarioSearchFinds()
    ensures VaultList(AfterT1(), "hello", AllCategories, false) == [T1()]
  {
    AfterT1Materials();
    T1SearchText();
    assert Lower("hello") == "hello";
    assert "t1hello world"[2..7] == "hello";
    assert OccursAt(SearchText(T1()), "hello", 2);
    SearchSingleton(T1(), "hello", AllCategories, false);
  }

  /** Walk-through, part 2: a query absent from title and content finds nothing. */
  lemma ScenarioSearchMisses()
    ensures VaultList(AfterT1(), "xyz", AllCategories, false) == []
  {
    AfterT1Materials();
    T1SearchText();
    assert Lower("xyz") == "xyz";
    assert 'x' !in "t1hello world";
    FirstCharAbsent(SearchText(T1()), "xyz");
    SearchSingleton(T1(), "xyz", AllCategories, false);
  }

  /** Walk-through, part 3: the category chip for another category hides it. */
  lemma ScenarioOtherCategoryHides()
    ensures VaultList(AfterT1(), "", "人物", false) == []
  {
    AfterT1Materials();
    SearchSingleton(T1(), "", "人物", false);
  }

  /**
   Walk-through, part 4: removing the category "案例" keeps the material and its
   now unlisted category name, and the by-type outline no longer shows it.
   */
  lemma ScenarioOrphanedCategory()
    ensures var s2 := Step(AfterT1(), RemoveCategory("案例"));
            && s2.materials == [T1()] && T1().category == "案例"
            && "案例" !in s2.categories
            && !Listed(OutlineOf(s2.materials, s2.categories, s2.domains, ByType), T1())
  {
    var s2 := Step(AfterT1(), RemoveCategory("案例"));
    AfterT1Materials();
    assert T1() in s2.materials;
    GroupByCovers(s2.materials, s2.categories, ByType, T1());
  }

  /**
   The classifier is told to answer with "政策" among the categories and "文化" or
   "社会" among the domains, none of which is a starter entry: on the starter lists
   such an answer leaves the selection unchanged.
   */
  lemma StarterListsIgnoreUnlistedSuggestion(d: Draft)
    ensures SmartTag(d, DefaultCategories, DefaultDomains,
                     Some(Suggestion(Some("政策"), Some("文化"), ["x"]))) == d
    ensures SmartTag(d, DefaultCategories, DefaultDomains,
                     Some(Suggestion(Some("政策"), Some("社会"), []))) == d
  {
    assert "政策" !in DefaultCategories;
    assert "文化" !in DefaultDomains && "社会" !in DefaultDomains;
  }

  /** In the seasonal preset, Summer's accent colour replaces the preset's own. */
  lemma ScenarioSummerAccent()
    ensures var s := Step(Initial, CycleSeason);
            s.season == Summer && CurrentTheme(s).accentColor == SeasonalOverlay(Summer).accentColor
            && CurrentTheme(s).accentColor != Initial.theme.accentColor
  {
    assert Step(Initial, CycleSeason).season == NextSeason(Spring) == Summer;
    SummerAccentOverridesPreset();
  }
}

=== FILE: editor.dfy ===
/**
 The material editor: the draft being typed, its initial category/domain
 selection, the guard that decides whether an AI suggestion may change the
 selection, and publishing the draft as a new material.
 */
module Editor {
  import opened Wrappers
  import opened Materials

  /** The selection used when a taxonomy list is empty or starts with an empty name. */
  const Fallback: string := "其他"

  /** What the editor form holds. */
  datatype Draft = Draft(title: string, content: string, category: string, domain: string)

  /**
   A classification returned by the external service. A field the response lacks
   is `None`; tags are returned but never attached to the draft.
   */
  datatype Suggestion = Suggestion(category: Option<string>, domain: Option<string>, tags: seq<string>)

  /** The first listed name, or the fallback when there is none (or it is empty). */
  function InitialChoice(names: seq<string>): (r: string)
    ensures r in names || r == Fallback
    ensures r != ""
    ensures |names| > 0 && names[0] != "" ==> r == names[0]
    ensures !(|names| > 0 && names[0] != "") ==> r == Fallback
  {
    if |names| > 0 && names[0] != "" then names[0] else Fallback
  }

  /** Every selection the form can hold: a listed name or the fallback. */
  predicate Selectable(d: Draft, categories: seq<string>, domains: seq<string>) {
    && (d.category in categories || d.category == Fallback)
    && (d.domain in domains || d.domain == Fallback)
  }

  /** The form as it opens: empty text, first category and first domain selected. */
  function Open(categories: seq<string>, domains: seq<string>): (d: Draft)
    ensures d.title == "" && d.content == ""
    ensures d.category == InitialChoice(categories) && d.domain == InitialChoice(domains)
    ensures Selectable(d, categories, domains)
  {
    Draft("", "", InitialChoice(categories), InitialChoice(domains))
  }

  /**
   The selection after a suggestion for one field: the suggested name replaces the
   current one only when it is present, non-empty and already listed.
   */
  function Accept(current: string, suggested: Option<string>, names: seq<string>): (r: string)
    ensures r == current || (suggested == Some(r) && r != "" && r in names)
    ensures suggested.Some? && suggested.value != "" && suggested.value in names ==> r == suggested.value
  {
    match suggested
    case Some(s) => if s != "" && s in names then s else current
    case None => current
  }

  /**
   The smart-tag button: nothing happens for empty content or a failed call
   (`None`); otherwise each field independently takes an acceptable suggestion.
   Title, content and the lists themselves are never changed.
   */
  function SmartTag(d: Draft, categories: seq<string>, domains: seq<string>, result: Option<Suggestion>): (r: Draft)
    ensures r.title == d.title && r.content == d.content
    ensures d.content == "" || result.None? ==> r == d
    ensures r.category == d.category || r.category in categories
    ensures r.domain == d.domain || r.domain in domains
    ensures d.content != "" && result.Some? && result.value.category.Some?
            && result.value.category.value != "" && result.value.category.value in categories
            ==> r.category == result.value.category.value
    ensures d.content != "" && result.Some? && result.value.domain.Some?
            && result.value.domain.value != "" && result.value.domain.value in domains
            ==> r.domain == result.value.domain.value
    ensures r.category != d.category ==> result.Some? && result.value.category == Some(r.category)
    ensures r.domain != d.domain ==> result.Some? && result.value.domain == Some(r.domain)
    ensures r.category != d.category ==> r.category != ""
    ensures r.domain != d.domain ==> r.domain != ""
    ensures Selectable(d, categories, domains) ==> Selectable(r, categories, domains)
  {
    if d.content == "" then d
    else
      match result
      case None => d
      case Some(s) =>
        d.(category := Accept(d.category, s.category, categories),
           domain := Accept(d.domain, s.domain, domains))
  }

  /** Picking from a drop-down, which only offers listed names. */
  function ChooseCategory(d: Draft, categories: seq<string>, c: string): (r: Draft)
    requires c in categories
    ensures r.category == c && r.category in categories
    ensures r.(category := d.category) == d
  {
    d.(category := c)
  }

  function ChooseDomain(d: Draft, domains: seq<string>, c: string): (r: Draft)
    requires c in domains
    ensures r.domain == c && r.domain in domains
    ensures r.(domain := d.domain) == d
  {
    d.(domain := c)
  }

  /**
   The publish button, enabled only when both title and content are non-empty;
   the id and timestamp come from the caller.
   */
  function Publish(d: Draft, id: string, createdAt: string): (r: Option<Material>)
    ensures r.Some? <==> d.title != "" && d.content != ""
    ensures r.Some? ==>
      && r.value.title == d.title && r.value.content == d.content
      && r.value.category == d.category && r.value.domain == d.domain
      && r.value.id == id && r.value.createdAt == createdAt
      && r.value.tags == [] && r.value.annotations == [] && !r.value.isKeyPoint
  {
    if d.title == "" || d.content == "" then None
    else Some(NewMaterial(id, createdAt, d.title, d.content, d.category, d.domain))
  }

  /** An unknown suggested name never reaches the draft: the taxonomy is not extended by suggestions. */
  lemma UnknownSuggestionIgnored(d: Draft, categories: seq<string>, domains: seq<string>, s: Suggestion)
    requires s.category.Some? && s.category.value !in categories
    requires s.domain.Some? && s.domain.value !in domains
    ensures SmartTag(d, categories, domains, Some(s)) == d
  {
  }

  /** A draft opened on any lists keeps a listed-or-fallback selection through any suggestion. */
  lemma SelectionStaysSelectable(categories: seq<string>, domains: seq<string>, result: Option<Suggestion>)
    ensures Selectable(SmartTag(Open(categories, domains), categories, domains, result), categories, domains)
  {
  }

  /**
   With an empty category list the editor opens on the fallback, which is not a
   listed category: a material can be published with a category outside the list.
   */
  lemma EmptyListPublishesUnlistedCategory(domains: seq<string>)
    ensures var d := Open([], domains).(title := "t", content := "c");
            var m := Publish(d, "id", "now");
            m.Some? && m.value.category == Fallback
  {
  }
}

=== FILE: materials.dfy ===
/**
 The material store: the record a user captures, and the list operations the
 application performs on the newest-first collection — save (prepend), delete by
 id, toggle the key-point flag, and the search-box filter.
 */
module Materials {
  import opened Wrappers
  import opened Seqs
  import opened Text

  datatype AnnotationKind = Highlight | Underline

  /** A span annotation; carried through unchanged by every operation here. */
  datatype Annotation = Annotation(
    id: string,
    start: int,
    end: int,
    kind: AnnotationKind,
    color: string,
    note: Option<string>,
    text: string)

  /**
   A captured note. `isKeyPoint` is optional in the stored record; an absent flag
   behaves as `false` everywhere it is read, so it is a plain boolean here.
   */
  datatype Material = Material(
    id: string,
    title: string,
    content: string,
    category: string,
    domain: string,
    tags: seq<string>,
    annotations: seq<Annotation>,
    createdAt: string,
    isKeyPoint: bool)

  /** The sentinel category filter that admits every category. */
  const AllCategories: string := "all"

  /** Two records agree on every field except, possibly, the key-point flag. */
  predicate SameExceptKeyPoint(a: Material, b: Material) {
    a.(isKeyPoint := b.isKeyPoint) == b
  }

  /**
   A freshly published material: the caller supplies the id and the timestamp
   (random and clock values in the application); tags and annotations start empty
   and the key-point flag starts off.
   */
  function NewMaterial(id: string, createdAt: string, title: string, content: string,
                       category: string, domain: string): (m: Material)
    ensures m.id == id && m.createdAt == createdAt
    ensures m.title == title && m.content == content
    ensures m.category == category && m.domain == domain
    ensures m.tags == [] && m.annotations == [] && !m.isKeyPoint
  {
    Material(id, title, content, category, domain, [], [], createdAt, false)
  }

  /** Saving puts the new material at the front of the collection. */
  function Save(ms: seq<Material>, m: Material): (r: seq<Material>)
    ensures |r| == |ms| + 1
    ensures r[0] == m && r[1..] == ms
    ensures forall x :: x in r <==> x == m || x in ms
  {
    [m] + ms
  }

  /** Removes every material carrying `id`; all others keep their order. */
  function Delete(ms: seq<Material>, id: string): (r: seq<Material>)
    ensures forall x :: x in r <==> x in ms && x.id != id
    ensures forall x :: x in r ==> x.id != id
    ensures IsSubsequence(r, ms)
    ensures (forall x :: x in ms ==> x.id != id) ==> r == ms
  {
    Filter(ms, (x: Material) => x.id != id)
  }

  /** Flips the key-point flag of every material carrying `id`, touching nothing else. */
  function ToggleKeyPoint(ms: seq<Material>, id: string): (r: seq<Material>)
    ensures |r| == |ms|
    ensures forall i :: 0 <= i < |ms| ==> SameExceptKeyPoint(r[i], ms[i])
    ensures forall i :: 0 <= i < |ms| ==> (r[i].isKeyPoint != ms[i].isKeyPoint <==> ms[i].id == id)
    ensures (forall x :: x in ms ==> x.id != id) ==> r == ms
  {
    seq(|ms|, i requires 0 <= i < |ms| =>
      if ms[i].id == id then ms[i].(isKeyPoint := !ms[i].isKeyPoint) else ms[i])
  }

  /** The text the search box is matched against: title and content run together, lower-cased. */
  function SearchText(m: Material): string {
    Lower(m.title + m.content)
  }

  /** The three tests of the material list, all of which must pass. */
  predicate Matches(m: Material, query: string, filterCat: string, keyOnly: bool): (b: bool)
    ensures b <==>
      && (exists i :: OccursAt(Lower(m.title + m.content), Lower(query), i))
      && (filterCat == AllCategories || m.category == filterCat)
      && (!keyOnly || m.isKeyPoint)
    ensures query == "" && filterCat == AllCategories && !keyOnly ==> b
  {
    && Includes(SearchText(m), Lower(query))
    && (filterCat == AllCategories || m.category == filterCat)
    && (!keyOnly || m.isKeyPoint)
  }

  /** The list shown on the vault tab for the current search box, category chip and key-point chip. */
  function Search(ms: seq<Material>, query: string, filterCat: string, keyOnly: bool): (r: seq<Material>)
    ensures IsSubsequence(r, ms)
    ensures forall m :: m in r <==>
      && m in ms
      && (exists i :: OccursAt(Lower(m.title + m.content), Lower(query), i))
      && (filterCat == AllCategories || m.category == filterCat)
      && (!keyOnly || m.isKeyPoint)
    ensures query == "" && filterCat == AllCategories && !keyOnly ==> r == ms
  {
    Filter(ms, (m: Material) => Matches(m, query, filterCat, keyOnly))
  }

  /**
   The shown list is the one longest order-preserving selection of materials that
   all pass the three tests: any other such selection at least as long is equal to it.
   */
  lemma SearchIsLongestMatching(ms: seq<Material>, query: string, filterCat: string, keyOnly: bool, r: seq<Material>)
    requires IsSubsequence(r, ms)
    requires forall m :: m in r ==> Matches(m, query, filterCat, keyOnly)
    requires |r| >= |Search(ms, query, filterCat, keyOnly)|
    ensures r == Search(ms, query, filterCat, keyOnly)
  {
    FilterUnique(r, ms, (m: Material) => Matches(m, query, filterCat, keyOnly));
  }

  /** A one-material list is shown exactly when that material passes the three tests. */
  lemma SearchSingleton(m: Material, query: string, filterCat: string, keyOnly: bool)
    ensures Search([m], query, filterCat, keyOnly) == if Matches(m, query, filterCat, keyOnly) then [m] else []
  {
  }

  /** Deleting a just-saved material whose id was fresh restores the collection. */
  lemma DeleteUndoesSave(ms: seq<Material>, m: Material)
    requires forall x :: x in ms ==> x.id != m.id
    ensures Delete(Save(ms, m), m.id) == ms
  {
    assert Save(ms, m)[1..] == ms;
  }

  /** Toggling the same id twice restores every flag. */
  lemma ToggleKeyPointInvolution(ms: seq<Material>, id: string)
    ensures ToggleKeyPoint(ToggleKeyPoint(ms, id), id) == ms
  {
  }

  /** Toggles of two ids commute. */
  lemma ToggleKeyPointCommutes(ms: seq<Material>, a: string, b: string)
    ensures ToggleKeyPoint(ToggleKeyPoint(ms, a), b) == ToggleKeyPoint(ToggleKeyPoint(ms, b), a)
  {
  }

  /** Searching is case-insensitive: queries with the same lower-case form give the same list. */
  lemma {:induction false} SearchCaseInsensitive(ms: seq<Material>, q1: string, q2: string, filterCat: string, keyOnly: bool)
    requires Lower(q1) == Lower(q2)
    ensures Search(ms, q1, filterCat, keyOnly) == Search(ms, q2, filterCat, keyOnly)
  {
    FilterCongruent(ms, (m: Material) => Matches(m, q1, filterCat, keyOnly),
                        (m: Material) => Matches(m, q2, filterCat, keyOnly));
  }

  /** Searching the result again with the same criteria changes nothing. */
  lemma SearchIdempotent(ms: seq<Material>, query: string, filterCat: string, keyOnly: bool)
    ensures Search(Search(ms, query, filterCat, keyOnly), query, filterCat, keyOnly)
         == Search(ms, query, filterCat, keyOnly)
  {
    FilterIdempotent(ms, (m: Material) => Matches(m, query, filterCat, keyOnly));
  }

  /**
   The query is matched against the title and content run together, so a query
   may straddle the two: title "ab" with content "cd" is found by "bc".
   */
  lemma SearchSpansTitleAndContent()
    ensures var m := NewMaterial("1", "t", "ab", "cd", "c", "d");
            Search([m], "bc", AllCategories, false) == [m]
  {
    var m := NewMaterial("1", "t", "ab", "cd", "c", "d");
    assert Lower("bc") == "bc";
    assert SearchText(m) == "abcd";
    assert OccursAt("abcd", "bc", 1);
  }
}

=== FILE: outline.dfy ===
/**
 The outline view: the whole (unfiltered) collection bucketed by category
 ("by type") or by domain ("by field"), one bucket per taxonomy entry in list
 order, with empty buckets left out.
 */
module Outline {
  import opened Seqs
  import opened Materials

  datatype Tab = ByType | ByField

  /** One visible section of the outline. */
  datatype Group = Group(name: string, items: seq<Material>)

  /** The field a tab buckets on. */
  function KeyOf(m: Material, tab: Tab): string {
    match tab
    case ByType => m.category
    case ByField => m.domain
  }

  /** The taxonomy list a tab iterates. */
  function NamesFor(tab: Tab, categories: seq<string>, domains: seq<string>): seq<string> {
    match tab
    case ByType => categories
    case ByField => domains
  }

  /** The section headings, top to bottom. */
  function GroupNames(gs: seq<Group>): (r: seq<string>)
    ensures |r| == |gs|
    ensures forall i :: 0 <= i < |gs| ==> r[i] == gs[i].name
    decreases |gs|
  {
    if gs == [] then [] else [gs[0].name] + GroupNames(gs[1..])
  }

  /** The materials of `ms` filed under `name`, in collection order. */
  function ItemsUnder(ms: seq<Material>, name: string, tab: Tab): (r: seq<Material>)
    ensures forall m :: m in r <==> m in ms && KeyOf(m, tab) == name
    ensures IsSubsequence(r, ms)
  {
    Filter(ms, (m: Material) => KeyOf(m, tab) == name)
  }

  /** The sections shown for the taxonomy list `names`. */
  function GroupBy(ms: seq<Material>, names: seq<string>, tab: Tab): (r: seq<Group>)
    ensures forall g :: g in r ==> g.name in names && g.items != []
    ensures forall g :: g in r ==> g.items == ItemsUnder(ms, g.name, tab)
    ensures IsSubsequence(GroupNames(r), names)
    decreases |names|
  {
    if names == [] then []
    else
      var rest := GroupBy(ms, names[1..], tab);
      var items := ItemsUnder(ms, names[0], tab);
      assert names == [names[0]] + names[1..];
      if items == [] then
        rest
      else
        var r := [Group(names[0], items)] + rest;
        assert r[1..] == rest;
        r
  }

  /** The outline shown for the selected tab. */
  function OutlineOf(ms: seq<Material>, categories: seq<string>, domains: seq<string>, tab: Tab): (r: seq<Group>)
    ensures tab == ByType ==> forall g :: g in r ==>
              && g.name in categories && g.items != []
              && (forall m :: m in g.items <==> m in ms && m.category == g.name)
    ensures tab == ByField ==> forall g :: g in r ==>
              && g.name in domains && g.items != []
              && (forall m :: m in g.items <==> m in ms && m.domain == g.name)
    ensures forall g :: g in r ==> g.items == ItemsUnder(ms, g.name, tab)
    ensures IsSubsequence(GroupNames(r), NamesFor(tab, categories, domains))
    ensures forall n :: n in GroupNames(r) <==> n in NamesFor(tab, categories, domains) && Used(ms, n, tab)
  {
    var names := NamesFor(tab, categories, domains);
    forall n {
      GroupByShowsEveryUsedName(ms, names, tab, n);
    }
    GroupBy(ms, names, tab)
  }

  /** Unfolds one step of `GroupBy`: the head entry's section, if any, then the rest. */
  lemma GroupByStep(ms: seq<Material>, names: seq<string>, tab: Tab)
    requires names != []
    ensures GroupBy(ms, names, tab)
         == (if ItemsUnder(ms, names[0], tab) != [] then [Group(names[0], ItemsUnder(ms, names[0], tab))] else [])
            + GroupBy(ms, names[1..], tab)
  {
  }

  /** `m` is listed in one of the sections `gs`. */
  ghost predicate Listed(gs: seq<Group>, m: Material) {
    exists g :: g in gs && m in g.items
  }

  lemma ListedAppend(a: seq<Group>, b: seq<Group>, m: Material)
    ensures Listed(a + b, m) <==> Listed(a, m) || Listed(b, m)
  {
    if Listed(a + b, m) {
      var g :| g in a + b && m in g.items;
      assert g in a || g in b;
    }
    if Listed(a, m) {
      var g :| g in a && m in g.items;
      assert g in a + b;
    }
    if Listed(b, m) {
      var g :| g in b && m in g.items;
      assert g in a + b;
    }
  }

  /**
   A material is listed in some section exactly when its key is a taxonomy entry:
   a material whose category (or domain) was removed from the list is not shown.
   */
  lemma {:induction false} GroupByCovers(ms: seq<Material>, names: seq<string>, tab: Tab, m: Material)
    requires m in ms
    ensures Listed(GroupBy(ms, names, tab), m) <==> KeyOf(m, tab) in names
    decreases |names|
  {
    if names != [] {
      var items := ItemsUnder(ms, names[0], tab);
      var head := if items != [] then [Group(names[0], items)] else [];
      GroupByCovers(ms, names[1..], tab, m);
      GroupByStep(ms, names, tab);
      ListedAppend(head, GroupBy(ms, names[1..], tab), m);
      ListedHead(ms, names[0], tab, m);
      assert names == [names[0]] + names[1..];
    }
  }

  /** The head entry's section, if shown, lists exactly the materials filed under it. */
  lemma ListedHead(ms: seq<Material>, name: string, tab: Tab, m: Material)
    requires m in ms
    ensures var items := ItemsUnder(ms, name, tab);
            Listed(if items != [] then [Group(name, items)] else [], m) <==> KeyOf(m, tab) == name
  {
    var items := ItemsUnder(ms, name, tab);
    if KeyOf(m, tab) == name {
      assert m in items;
      assert Group(name, items) in [Group(name, items)];
    }
  }

  /** Some material of `ms` is filed under `name`. */
  ghost predicate Used(ms: seq<Material>, name: string, tab: Tab) {
    exists m :: m in ms && KeyOf(m, tab) == name
  }

  lemma UsedIffItems(ms: seq<Material>, name: string, tab: Tab)
    ensures Used(ms, name, tab) <==> ItemsUnder(ms, name, tab) != []
  {
    var items := ItemsUnder(ms, name, tab);
    if items != [] {
      assert items[0] in items;
    }
  }

  /** One step of `GroupBy`, seen through the section names only. */
  lemma GroupNamesStep(ms: seq<Material>, names: seq<string>, tab: Tab)
    requires names != []
    ensures GroupNames(GroupBy(ms, names, tab))
         == (if ItemsUnder(ms, names[0], tab) != [] then [names[0]] else [])
            + GroupNames(GroupBy(ms, names[1..], tab))
  {
    var rest := GroupBy(ms, names[1..], tab);
    var items := ItemsUnder(ms, names[0], tab);
    GroupByStep(ms, names, tab);
    if items != [] {
      assert ([Group(names[0], items)] + rest)[1..] == rest;
    }
  }

  /** Every non-empty bucket appears: an entry gets a section exactly when some material is filed under it. */
  lemma {:induction false} GroupByShowsEveryUsedName(ms: seq<Material>, names: seq<string>, tab: Tab, name: string)
    ensures name in GroupNames(GroupBy(ms, names, tab)) <==> name in names && Used(ms, name, tab)
    decreases |names|
  {
    if names != [] {
      GroupByShowsEveryUsedName(ms, names[1..], tab, name);
      GroupNamesStep(ms, names, tab);
      UsedIffItems(ms, names[0], tab);
      assert names == [names[0]] + names[1..];
    }
  }

  /** Over a duplicate-free taxonomy list each section name appears once. */
  lemma GroupByNamesNoDup(ms: seq<Material>, names: seq<string>, tab: Tab)
    requires NoDup(names)
    ensures NoDup(GroupNames(GroupBy(ms, names, tab)))
  {
    SubsequenceNoDup(GroupNames(GroupBy(ms, names, tab)), names);
  }
}

=== FILE: seqs.dfy ===
/**
 Sequence vocabulary shared by the stores: JavaScript's `Array.prototype.filter`
 as a pure function, the subsequence order it preserves, and duplicate-freedom.
 */
module Seqs {

  /** `a` can be obtained from `b` by deleting elements; the kept ones stay in order. */
  ghost predicate IsSubsequence<T>(a: seq<T>, b: seq<T>)
    decreases |b|
  {
    && |a| <= |b|
    && (|| a == []
        || (a[0] == b[0] && IsSubsequence(a[1..], b[1..]))
        || IsSubsequence(a, b[1..]))
  }

  /** No value occurs at two positions. */
  predicate NoDup<T(==)>(s: seq<T>) {
    forall i, j :: 0 <= i < j < |s| ==> s[i] != s[j]
  }

  /** The elements of `s` that satisfy `p`, in their original order. */
  function Filter<T(==,!new)>(s: seq<T>, p: T -> bool): (r: seq<T>)
    ensures forall x :: x in r <==> x in s && p(x)
    ensures IsSubsequence(r, s)
    ensures (forall x :: x in s ==> p(x)) ==> r == s
    decreases |s|
  {
    if s == [] then []
    else
      var rest := Filter(s[1..], p);
      assert s == [s[0]] + s[1..];
      if p(s[0]) then
        assert ([s[0]] + rest)[1..] == rest;
        [s[0]] + rest
      else
        assert rest != [] ==> rest[0] in rest;
        rest
  }

  /** Each kept value keeps all its occurrences; each dropped value loses all of them. */
  lemma {:induction false} FilterMultiplicity<T(!new)>(s: seq<T>, p: T -> bool, x: T)
    ensures multiset(Filter(s, p))[x] == if p(x) then multiset(s)[x] else 0
    decreases |s|
  {
    if s != [] {
      FilterMultiplicity(s[1..], p, x);
      assert s == [s[0]] + s[1..];
    }
  }

  /** A value rejected by `p`, appended to elements all accepted by `p`, is filtered away. */
  lemma {:induction false} FilterDropsRejectedLast<T(!new)>(s: seq<T>, x: T, p: T -> bool)
    requires !p(x)
    requires forall y :: y in s ==> p(y)
    ensures Filter(s + [x], p) == s
    decreases |s|
  {
    if s == [] {
      assert [x][1..] == [];
    } else {
      assert (s + [x])[1..] == s[1..] + [x];
      assert s[0] in s;
      FilterDropsRejectedLast(s[1..], x, p);
      assert s == [s[0]] + s[1..];
    }
  }

  lemma {:induction false} SubsequenceOfEmpty<T>(a: seq<T>)
    requires IsSubsequence(a, [])
    ensures a == []
  {
  }

  /** Every element of a subsequence is an element of the whole. */
  lemma {:induction false} SubsequenceMembers<T>(a: seq<T>, b: seq<T>)
    requires IsSubsequence(a, b)
    ensures forall x :: x in a ==> x in b
    decreases |b|
  {
    if a == [] {
    } else if a[0] == b[0] && IsSubsequence(a[1..], b[1..]) {
      SubsequenceMembers(a[1..], b[1..]);
      assert a == [a[0]] + a[1..];
      assert b == [b[0]] + b[1..];
    } else {
      SubsequenceMembers(a, b[1..]);
      assert b == [b[0]] + b[1..];
    }
  }

  /** A subsequence of a duplicate-free sequence is duplicate-free. */
  lemma {:induction false} SubsequenceNoDup<T>(a: seq<T>, b: seq<T>)
    requires IsSubsequence(a, b)
    requires NoDup(b)
    ensures NoDup(a)
    decreases |b|
  {
    if a == [] {
    } else if a[0] == b[0] && IsSubsequence(a[1..], b[1..]) {
      SubsequenceNoDup(a[1..], b[1..]);
      SubsequenceMembers(a[1..], b[1..]);
      assert b[0] !in b[1..] by {
        forall j | 0 <= j < |b[1..]| ensures b[1..][j] != b[0] {
          assert b[1..][j] == b[j + 1];
        }
      }
      NoDupCons(a[0], a[1..]);
      assert a == [a[0]] + a[1..];
    } else {
      assert NoDup(b[1..]) by {
        forall i, j | 0 <= i < j < |b[1..]| ensures b[1..][i] != b[1..][j] {
          assert b[1..][i] == b[i + 1] && b[1..][j] == b[j + 1];
        }
      }
      SubsequenceNoDup(a, b[1..]);
    }
  }

  lemma NoDupCons<T>(x: T, s: seq<T>)
    requires x !in s
    requires NoDup(s)
    ensures NoDup([x] + s)
  {
    var t := [x] + s;
    forall i, j | 0 <= i < j < |t| ensures t[i] != t[j] {
      assert t[j] == s[j - 1];
      if i > 0 {
        assert t[i] == s[i - 1];
      }
    }
  }

  /** Appending a fresh value keeps a sequence duplicate-free. */
  lemma NoDupSnoc<T>(s: seq<T>, x: T)
    requires x !in s
    ensures NoDup(s) ==> NoDup(s + [x])
  {
    if NoDup(s) {
      var t := s + [x];
      forall i, j | 0 <= i < j < |t| ensures t[i] != t[j] {
        assert t[i] == s[i];
        if j < |s| {
          assert t[j] == s[j];
        }
      }
    }
  }

  /** Filtering never introduces a duplicate. */
  lemma FilterNoDup<T(!new)>(s: seq<T>, p: T -> bool)
    ensures NoDup(s) ==> NoDup(Filter(s, p))
  {
    if NoDup(s) {
      SubsequenceNoDup(Filter(s, p), s);
    }
  }

  /** Any subsequence whose elements all satisfy `p` is no longer than `Filter(s, p)`. */
  lemma {:induction false} FilterIsLongest<T(!new)>(r: seq<T>, s: seq<T>, p: T -> bool)
    requires IsSubsequence(r, s)
    requires forall x :: x in r ==> p(x)
    ensures |r| <= |Filter(s, p)|
    decreases |s|
  {
    if r == [] {
    } else {
      assert s == [s[0]] + s[1..];
      if r[0] == s[0] && IsSubsequence(r[1..], s[1..]) {
        assert r[0] in r;
        FilterIsLongest(r[1..], s[1..], p);
      } else {
        FilterIsLongest(r, s[1..], p);
      }
    }
  }

  /**
   `Filter(s, p)` is the only longest subsequence of `s` made of elements
   satisfying `p`: an independent characterisation of the recursive definition.
   */
  lemma {:induction false} FilterUnique<T(!new)>(r: seq<T>, s: seq<T>, p: T -> bool)
    requires IsSubsequence(r, s)
    requires forall x :: x in r ==> p(x)
    requires |r| >= |Filter(s, p)|
    ensures r == Filter(s, p)
    decreases |s|
  {
    if s == [] {
      SubsequenceOfEmpty(r);
    } else {
      assert s == [s[0]] + s[1..];
      if r == [] {
        assert Filter(s, p) == [];
      } else if r[0] == s[0] && IsSubsequence(r[1..], s[1..]) {
        assert r[0] in r;
        FilterUnique(r[1..], s[1..], p);
        assert r == [r[0]] + r[1..];
      } else {
        FilterIsLongest(r, s[1..], p);
        FilterUnique(r, s[1..], p);
      }
    }
  }

  /** Two predicates that agree on every element filter alike. */
  lemma {:induction false} FilterCongruent<T(!new)>(s: seq<T>, p: T -> bool, q: T -> bool)
    requires forall x :: x in s ==> p(x) == q(x)
    ensures Filter(s, p) == Filter(s, q)
    decreases |s|
  {
    if s != [] {
      assert s == [s[0]] + s[1..];
      FilterCongruent(s[1..], p, q);
    }
  }

  /** Filtering twice by the same predicate is filtering once. */
  lemma FilterIdempotent<T(!new)>(s: seq<T>, p: T -> bool)
    ensures Filter(Filter(s, p), p) == Filter(s, p)
  {
  }
}

=== FILE: taxonomy.dfy ===
/**
 The two user-managed name lists (categories, "types", and domains, "fields").
 Both lists use the same add and remove operations; order is display order.
 */
module Taxonomy {
  import opened Seqs

  /** Starter categories used when nothing is stored. */
  const DefaultCategories: seq<string> := ["案例", "人物", "金句", "文件", "其他"]

  /** Starter domains used when nothing is stored. */
  const DefaultDomains: seq<string> := ["生态", "环境", "经济", "税务", "政治", "科技"]

  /** The invariant both lists keep: no repeated name and no empty name. */
  predicate WellFormed(names: seq<string>) {
    NoDup(names) && "" !in names
  }

  /**
   Adds `name` at the end unless it is empty or already listed (exact,
   case-sensitive comparison); a rejected name leaves the list as it was.
   */
  function Add(names: seq<string>, name: string): (r: seq<string>)
    ensures name == "" || name in names ==> r == names
    ensures name != "" && name !in names ==> |r| == |names| + 1 && r[|names|] == name
    ensures r[..|names|] == names
    ensures forall x :: x in r <==> x in names || (x == name && name != "")
    ensures WellFormed(names) ==> WellFormed(r)
  {
    if name != "" && name !in names then
      NoDupSnoc(names, name);
      names + [name]
    else
      names
  }

  /** Drops every exact occurrence of `name`; the others keep their relative order. */
  function Remove(names: seq<string>, name: string): (r: seq<string>)
    ensures name !in r
    ensures forall x :: x in r <==> x in names && x != name
    ensures IsSubsequence(r, names)
    ensures name !in names ==> r == names
    ensures WellFormed(names) ==> WellFormed(r)
  {
    FilterNoDup(names, (x: string) => x != name);
    Filter(names, (x: string) => x != name)
  }

  /** Adding a name twice is adding it once. */
  lemma AddIdempotent(names: seq<string>, name: string)
    ensures Add(Add(names, name), name) == Add(names, name)
  {
  }

  /** Removing a name that was just added, and was not listed before, restores the list. */
  lemma RemoveUndoesAdd(names: seq<string>, name: string)
    requires name !in names
    ensures Remove(Add(names, name), name) == names
  {
    if name != "" {
      var p := (x: string) => x != name;
      assert Add(names, name) == names + [name];
      FilterDropsRejectedLast(names, name, p);
    }
  }

  /** One edit made on the index-management screen. */
  datatype Edit = AddName(name: string) | RemoveName(name: string)

  function ApplyEdit(names: seq<string>, e: Edit): seq<string> {
    match e
    case AddName(n) => Add(names, n)
    case RemoveName(n) => Remove(names, n)
  }

  /** The list after a whole session of edits, applied first to last. */
  function ApplyEdits(names: seq<string>, edits: seq<Edit>): seq<string>
    decreases |edits|
  {
    if edits == [] then names else ApplyEdits(ApplyEdit(names, edits[0]), edits[1..])
  }

  /** One edit keeps the list well formed and adds no name other than its own argument. */
  lemma ApplyEditKeepsWellFormed(names: seq<string>, e: Edit)
    requires WellFormed(names)
    ensures WellFormed(ApplyEdit(names, e))
    ensures forall x :: x in ApplyEdit(names, e) ==> x in names || e == AddName(x)
  {
  }

  /**
   After any session of edits the list is still well formed, and every name in it
   was either there at the start or the argument of an add in the session.
   */
  lemma {:induction false} ApplyEditsKeepsWellFormed(names: seq<string>, edits: seq<Edit>)
    requires WellFormed(names)
    ensures WellFormed(ApplyEdits(names, edits))
    ensures forall x :: x in ApplyEdits(names, edits) ==> x in names || AddName(x) in edits
    decreases |edits|
  {
    if edits != [] {
      var next := ApplyEdit(names, edits[0]);
      ApplyEditKeepsWellFormed(names, edits[0]);
      ApplyEditsKeepsWellFormed(next, edits[1..]);
      forall x | x in ApplyEdits(names, edits) ensures x in names || AddName(x) in edits {
        if x !in next {
          assert AddName(x) in edits[1..];
          assert edits == [edits[0]] + edits[1..];
        } else if x !in names {
          assert edits[0] == AddName(x);
        }
      }
    }
  }

  /** The starter lists satisfy the invariant. */
  lemma DefaultsWellFormed()
    ensures WellFormed(DefaultCategories) && WellFormed(DefaultDomains)
  {
  }
}

=== FILE: text.dfy ===
/**
 The two string primitives the search box relies on: `String.prototype.toLowerCase`
 (restricted to the ASCII letters) and `String.prototype.includes`.
 */
module Text {

  /** Lower-cases an ASCII capital; every other character, CJK included, is unchanged. */
  function LowerChar(c: char): (r: char)
    ensures 'A' <= c <= 'Z' ==> 'a' <= r <= 'z' && r as int - c as int == 'a' as int - 'A' as int
    ensures !('A' <= c <= 'Z') ==> r == c
    ensures !('A' <= r <= 'Z')
  {
    if 'A' <= c <= 'Z' then (c as int + 32) as char else c
  }

  /** `s.toLowerCase()` over the ASCII capitals: same length, no capital left, every other character kept. */
  function Lower(s: string): (r: string)
    ensures |r| == |s|
    ensures forall i :: 0 <= i < |s| ==> !('A' <= r[i] <= 'Z')
    ensures forall i :: 0 <= i < |s| && !('A' <= s[i] <= 'Z') ==> r[i] == s[i]
    ensures forall i :: 0 <= i < |s| && 'A' <= s[i] <= 'Z' ==> r[i] as int == s[i] as int + 32
  {
    seq(|s|, i requires 0 <= i < |s| => LowerChar(s[i]))
  }

  /** `pat` occurs in `text` starting at position `i`. */
  ghost predicate OccursAt(text: string, pat: string, i: int) {
    0 <= i && i + |pat| <= |text| && text[i..i + |pat|] == pat
  }

  /** `text.includes(pat)`, scanning the start positions from left to right. */
  function Includes(text: string, pat: string): (r: bool)
    ensures r <==> exists i :: OccursAt(text, pat, i)
    ensures pat == [] ==> r
    decreases |text|
  {
    if |pat| > |text| then false
    else if text[..|pat|] == pat then
      assert OccursAt(text, pat, 0);
      true
    else if |pat| < |text| then
      var rest := Includes(text[1..], pat);
      assert forall i :: OccursAt(text[1..], pat, i) ==> OccursAt(text, pat, i + 1) by {
        forall i | OccursAt(text[1..], pat, i) ensures OccursAt(text, pat, i + 1) {
          assert text[1..][i..i + |pat|] == text[i + 1..i + 1 + |pat|];
        }
      }
      assert forall i :: OccursAt(text, pat, i) && i > 0 ==> OccursAt(text[1..], pat, i - 1) by {
        forall i | OccursAt(text, pat, i) && i > 0 ensures OccursAt(text[1..], pat, i - 1) {
          assert text[1..][i - 1..i - 1 + |pat|] == text[i..i + |pat|];
        }
      }
      assert !OccursAt(text, pat, 0);
      rest
    else
      assert forall i :: OccursAt(text, pat, i) ==> i == 0;
      false
  }

  /** Lower-casing is applied character by character, so it distributes over concatenation. */
  lemma LowerAppend(a: string, b: string)
    ensures Lower(a + b) == Lower(a) + Lower(b)
  {
  }

  /** A lower-cased string is its own lower-case form. */
  lemma LowerIdempotent(s: string)
    ensures Lower(Lower(s)) == Lower(s)
  {
  }

  /** A pattern whose first character never occurs in the text is not found. */
  lemma FirstCharAbsent(text: string, pat: string)
    requires |pat| > 0 && pat[0] !in text
    ensures !Includes(text, pat)
  {
    forall i | 0 <= i && i + |pat| <= |text| ensures !OccursAt(text, pat, i) {
      assert text[i..i + |pat|][0] == text[i] && text[i] in text;
    }
  }

  /** A match found in either part is found in their concatenation. */
  lemma IncludesAppend(a: string, b: string, pat: string)
    ensures Includes(a, pat) ==> Includes(a + b, pat)
    ensures Includes(b, pat) ==> Includes(a + b, pat)
  {
    if Includes(a, pat) {
      var i :| OccursAt(a, pat, i);
      assert (a + b)[i..i + |pat|] == a[i..i + |pat|];
      assert OccursAt(a + b, pat, i);
    }
    if Includes(b, pat) {
      var i :| OccursAt(b, pat, i);
      assert (a + b)[|a| + i..|a| + i + |pat|] == b[i..i + |pat|];
      assert OccursAt(a + b, pat, |a| + i);
    }
  }
}

=== FILE: theme.dfy ===
/**
 Theme resolution: four built-in presets, a per-season colour overlay that
 applies only to the seasonal ("stardew") preset, and the four-step season cycle.
 */
module Theme {

  datatype Mode = Minimal | Pixel | Stardew | Custom

  datatype Season = Spring | Summer | Autumn | Winter

  /** The style tokens the presentation layer reads. */
  datatype ThemeConfig = ThemeConfig(
    mode: Mode,
    fontFamily: string,
    bgColor: string,
    panelColor: string,
    textColor: string,
    accentColor: string,
    borderColor: string,
    borderRadius: string,
    borderWidth: string,
    shadow: string)

  /** The tokens a season overrides; every season row sets all four. */
  datatype Overlay = Overlay(bgColor: string, panelColor: string, accentColor: string, borderColor: string)

  function Preset(mode: Mode): (t: ThemeConfig)
    ensures t.mode == mode
  {
    match mode
    case Minimal =>
      ThemeConfig(Minimal, "'Noto Sans SC', sans-serif", "#F7F7F7", "#ffffff", "#191919",
                  "#07C160", "#EEEEEE", "12px", "0px", "0 2px 10px rgba(0,0,0,0.05)")
    case Pixel =>
      ThemeConfig(Pixel, "'ZCOOL KuaiLe', cursive", "#5c94fc", "#ffffff", "#000000",
                  "#f8d800", "#000000", "0px", "3px", "4px 4px 0px 0px rgba(0,0,0,1)")
    case Stardew =>
      ThemeConfig(Stardew, "'ZCOOL XiaoWei', serif", "#3d2817", "#F4E4BC", "#3d2817",
                  "#5B9B42", "#724E31", "24px", "4px", "6px 6px 0px 0px rgba(0,0,0,0.15)")
    case Custom =>
      ThemeConfig(Custom, "'Noto Sans SC', sans-serif", "#ffffff", "#f3f4f6", "#000000",
                  "#000000", "#000000", "8px", "1px", "none")
  }

  /** The theme used when nothing is stored. */
  const DefaultTheme: ThemeConfig := Preset(Stardew)

  /**
   The colours each season imposes on the seasonal preset. Only the Spring row
   repeats the preset's own accent, so every other season visibly recolours it.
   */
  function SeasonalOverlay(season: Season): (o: Overlay)
    ensures o.accentColor == Preset(Stardew).accentColor <==> season == Spring
    ensures season == Spring ==>
      o == Overlay(Preset(Stardew).bgColor, Preset(Stardew).panelColor,
                   Preset(Stardew).accentColor, Preset(Stardew).borderColor)
  {
    match season
    case Spring => Overlay("#3d2817", "#F4E4BC", "#5B9B42", "#724E31")
    case Summer => Overlay("#2d5a27", "#fefce8", "#EAB308", "#854d0e")
    case Autumn => Overlay("#9a3412", "#fff7ed", "#f97316", "#7c2d12")
    case Winter => Overlay("#1e293b", "#f1f5f9", "#0ea5e9", "#334155")
  }

  /**
   The effective theme: for the seasonal preset the season's four colours win
   over the stored ones; any other mode is used as stored.
   */
  function Resolve(theme: ThemeConfig, season: Season): (r: ThemeConfig)
    ensures r.mode == theme.mode
    ensures theme.mode != Stardew ==> r == theme
    ensures theme.mode == Stardew ==>
      && r.bgColor == SeasonalOverlay(season).bgColor
      && r.panelColor == SeasonalOverlay(season).panelColor
      && r.accentColor == SeasonalOverlay(season).accentColor
      && r.borderColor == SeasonalOverlay(season).borderColor
    ensures
      && r.fontFamily == theme.fontFamily
      && r.textColor == theme.textColor
      && r.borderRadius == theme.borderRadius
      && r.borderWidth == theme.borderWidth
      && r.shadow == theme.shadow
  {
    if theme.mode == Stardew then
      var o := SeasonalOverlay(season);
      theme.(bgColor := o.bgColor, panelColor := o.panelColor,
             accentColor := o.accentColor, borderColor := o.borderColor)
    else
      theme
  }

  /** The cycle order used by the double-tap gesture. */
  const Seasons: seq<Season> := [Spring, Summer, Autumn, Winter]

  function IndexOf(season: Season): (i: nat)
    ensures i < |Seasons| && Seasons[i] == season
  {
    match season
    case Spring => 0
    case Summer => 1
    case Autumn => 2
    case Winter => 3
  }

  /** The season after `season`, wrapping from the last back to the first. */
  function NextSeason(season: Season): (r: Season)
    ensures r != season
    ensures season != Winter ==> IndexOf(r) == IndexOf(season) + 1
    ensures season == Winter ==> r == Spring
  {
    Seasons[(IndexOf(season) + 1) % |Seasons|]
  }

  /** Resolving an already resolved theme changes nothing. */
  lemma ResolveIdempotent(theme: ThemeConfig, season: Season)
    ensures Resolve(Resolve(theme, season), season) == Resolve(theme, season)
  {
  }

  /** The Spring row repeats the seasonal preset's own colours. */
  lemma SpringIsStardewPreset()
    ensures Resolve(Preset(Stardew), Spring) == Preset(Stardew)
  {
  }

  /** In Summer the seasonal preset's accent is the Summer accent, not the stored one. */
  lemma SummerAccentOverridesPreset()
    ensures Resolve(Preset(Stardew), Summer).accentColor == "#EAB308"
    ensures Resolve(Preset(Stardew), Summer).accentColor != Preset(Stardew).accentColor
  {
  }

  /** Four steps return to the start, passing four different seasons (so all of them) on the way. */
  lemma NextSeasonCycle(season: Season)
    ensures var s1 := NextSeason(season);
            var s2 := NextSeason(s1);
            var s3 := NextSeason(s2);
            && NextSeason(s3) == season
            && season != s2 && season != s3 && s1 != s3
  {
  }
}

=== FILE: wrappers.dfy ===
/** Optional values: JavaScript's `null` / `undefined` made explicit. */
module Wrappers {

  datatype Option<+T> = None | Some(value: T)
}
